=== FILE: README.md ===
# Calendar generator — a Dafny model

The calendar generator is a single form component, `src/CalendarForm.js`.
The user picks a number of days, an occupancy percentage and a set of meeting
titles. The form then writes an iCalendar file of back-to-back meeting blocks.
This project models the two pieces of logic inside that component and proves
properties of them:

- **The schedule generator** (`generateICal`). Day offsets `0 .. days-1` are
  scanned, and Saturdays and Sundays are skipped. For each remaining day a
  morning loop starts at 09:00 and an afternoon loop at 14:00. Each loop
  places 60-minute blocks while at least 60 minutes of budget are left, then
  30-minute blocks, and stops once the budget is spent or the clock reaches
  the generation day's 13:00 or 17:00. As written, only day offset 0 therefore
  receives blocks (see "Findings"). Each block's title is drawn at random from
  the selected titles.
- **The title lists** (`handleTitleChange`, `addNewTitle`). Clicking a title's
  checkbox toggles it in the selection. "Add Title" appends a new title to
  both lists.

## Modelling choices

- **Time.** A timestamp is an integer number of minutes since midnight of the
  generation day. `Clock.At(day, hour)` is `hour`:00 on day offset `day`.
- **Weekdays and randomness.** These are inputs.
  - `weekday(d)` is what `Date.getDay()` returns for day offset `d`.
  - `rand(k)` is the value of the `k`-th call of `Math.random()` in one
    generation. The `k`-th block takes the `k`-th draw.
  - `Schedule.PickTitle` computes the index `floor(r * |selected|)` on the
    exact real product (see "Left out" for the floating-point product). It
    gives `None` when that index falls outside the selection. This is the
    `undefined` summary `generateICal` passes on when nothing is selected.
- **The window ends.** `generateICal` builds `lunchStart` and `workdayEnd` once,
  from the generation date (lines 45-49). It compares every scanned day's
  clock against those two instants (lines 63 and 78).
  - `Schedule.Generate` models this as written: `Anchor.GenerationDay`.
    As a result, only day offset 0 can ever receive blocks
    (`GenerateFacts.GenerateAsWritten`).
  - `Schedule.GenerateIntended` compares each day with its own 13:00 and
    17:00: `Anchor.EachDay`. See "Findings".
  - The day-level lemmas in `DayFacts` cover both anchorings.
- **The budget** is `floor(window * p / 100)` on unbounded integers.
- **The inputs are not cleaned up.** `days` and `percentage` are any integers.
  The window-end bound holds for every percentage. The totals are stated for
  1 to 100.
- **The title lists.** These are the `Titles.Form` record. `Titles.Step` and
  `Titles.Run` replay what the user can do to them: click the checkbox shown
  in a row, type into the field, or click "Add Title".

## Two behaviours of the code worth knowing

- **Overshoot of the budget.** A block is placed whenever any budget is left,
  so from 1 to 100 percent a window is filled to its budget rounded up to a
  multiple of 30, up to 29 minutes over (`GenerateFacts.OvershootUnder30`).
- **Only the generation day gets blocks**, however many days are scanned
  (`GenerateFacts.FullOccupancyScenario`; see "Findings").

## Model

| member | source | states |
|---|---|---|
| Clock.DayOf | src/CalendarForm.js:52-53 | the day offset returned is the one whose midnight-to-midnight span contains the timestamp |
| Schedule.Budget | src/CalendarForm.js:59-60 | the budget is the largest whole number of minutes not above `window * p / 100` |
| Schedule.PickTitle | src/CalendarForm.js:65 | a picked title is always one of the selected titles; for a draw in [0, 1) a title is picked exactly when the selection is non-empty |
| Schedule.FloorIndexInRange | src/CalendarForm.js:80 | for a draw in [0, 1), `floor(r * n)` is a valid index into a list of length n |
| Schedule.Fill | src/CalendarForm.js:61-72 | a half-day fill places no block exactly when it starts at or after its window end, or with no budget |
| FillFacts.FillBlockAt | src/CalendarForm.js:63-71 | every block of a fill starts inside the window, before its end, lasts 30 or 60 minutes, and takes the draw numbered by its position |
| FillFacts.FillContiguous | src/CalendarForm.js:67-68 | the first block starts at the window start, and each later block starts where the one before it ended |
| FillFacts.FillBlockLength | src/CalendarForm.js:64 | a block lasts 60 minutes exactly when the budget left at its start (budget minus minutes already placed) is at least 60, otherwise 30 |
| FillFacts.FillEndsByLimit | src/CalendarForm.js:78-79 | for a window of whole hours, no block ends after the window end, whatever the budget |
| FillFacts.FillTotal | src/CalendarForm.js:59-72 | a fill covers the smaller of the budget rounded up to a multiple of 30 and the time to the window end |
| FillFacts.FillChronological | src/CalendarForm.js:66-71 | the blocks of a fill never overlap and come in time order |
| DayFacts.HalfDayBlockAt | src/CalendarForm.js:76-87 | a block of a half-day fill takes its draw, lasts 30 or 60 minutes and falls on the scanned day; under per-day anchoring it stays inside that day's window |
| DayFacts.DayBlockAt | src/CalendarForm.js:59-87 | every block of one scanned day takes the draw numbered by its position, lasts 30 or 60 minutes and falls on that day |
| DayFacts.DaysBlockAt | src/CalendarForm.js:51-57 | every block of the day loop falls on a scanned day offset that is not a Saturday or Sunday, so weekends use up scanned days instead of extending the range |
| DayFacts.DaysBlockOn | src/CalendarForm.js:53-55 | the same facts stated through the day each block's start falls on: its draw, its length, a scanned workday, and under per-day anchoring its own day's windows |
| GenerateFacts.BudgetBounds | src/CalendarForm.js:74-75 | any positive percentage gives both budgets at least one minute, and up to 100 percent neither budget exceeds its window |
| GenerateFacts.LaterDaysEmpty | src/CalendarForm.js:45-49 | with both instants fixed to the generation day, every later day offset gets no blocks |
| GenerateFacts.GenerateAsWritten | src/CalendarForm.js:51-88 | the whole calendar is the generation day's morning and afternoon, or empty when no day is scanned or the generation day is a weekend day |
| GenerateFacts.GenerateInWindows | src/CalendarForm.js:63-64 | every block lasts 30 or 60 minutes and lies inside 09:00–13:00 or 14:00–17:00, so no block crosses the lunch break |
| GenerateFacts.GenerateChronological | src/CalendarForm.js:76-86 | the blocks of the calendar come in time order without overlap |
| GenerateFacts.GenerateTitles | src/CalendarForm.js:80 | the i-th block takes the i-th random draw; with every draw in [0, 1) each title is a selected title, and with nothing selected each title is undefined |
| GenerateFacts.GenerateOnScannedWorkdays | src/CalendarForm.js:55-57 | every block starts on a scanned day offset that is not a Saturday or Sunday |
| GenerateFacts.WindowTotal | src/CalendarForm.js:74-87 | a budget that fits a window of whole hours is covered exactly up to the next multiple of 30 |
| GenerateFacts.OvershootUnder30 | src/CalendarForm.js:60-71 | for 1 to 100 percent each half-day is filled to at least its budget and less than 30 minutes over it |
| GenerateFacts.OnePercentQuirk | src/CalendarForm.js:60 | at 1 percent the budgets are 2 and 1 minutes, yet each half-day still gets one 30-minute block |
| GenerateFacts.FullWindow | src/CalendarForm.js:63-71 | at full budget, a window of k hours is tiled by exactly k hour-long blocks |
| GenerateFacts.SingleTitle | src/CalendarForm.js:65 | with one selected title, every draw in [0, 1) picks it |
| GenerateFacts.MorningAtFull | src/CalendarForm.js:59-72 | at 100 percent the morning is four hour-long blocks from 09:00 to 13:00 |
| GenerateFacts.AfternoonAtFull | src/CalendarForm.js:74-87 | at 100 percent the afternoon is three hour-long blocks from 14:00 to 17:00 |
| GenerateFacts.FullOccupancyScenario | src/CalendarForm.js:43-88 | at 100 percent with one title, however many days are scanned, the calendar is exactly seven hour-long blocks on the generation day, all with that title |
| IntendedFacts.IntendedDayStarts | src/CalendarForm.js:61 | under per-day anchoring, a scanned workday with positive budgets gets a block at 09:00 and one at 14:00 |
| IntendedFacts.IntendedCoversWorkday | src/CalendarForm.js:51-57 | under per-day anchoring, every scanned workday from a given offset on gets blocks at 09:00 and 14:00 |
| IntendedFacts.IntendedFillsEveryWorkday | src/CalendarForm.js:45-49 | comparing each day with its own 13:00 and 17:00, every block lies in its own day's windows on a scanned workday, and every scanned workday is filled from 09:00 and from 14:00 |
| IntendedFacts.SecondWorkdayDropped | src/CalendarForm.js:63 | with two scanned days and a weekday second, the calendar of `generateICal` has no 09:00 block on the second day |
| IntendedFacts.SecondWorkdayKept | src/CalendarForm.js:61 | on the same input, comparing each day with its own 13:00 gives the second day its 09:00 block |
| Titles.Initial | src/CalendarForm.js:7-25 | the form opens with fifteen distinct titles, all selected, and an empty field, which satisfies the form's invariant |
| Titles.Without | src/CalendarForm.js:30 | removing a title drops every copy of it, keeps every other title, and leaves a list without that title unchanged |
| Titles.WithoutCount | src/CalendarForm.js:30 | removing a title changes no other title's number of occurrences |
| Titles.Toggle | src/CalendarForm.js:29-31 | clicking a checkbox flips whether that title is selected, leaves every other title's membership and order alone, and appends a newly ticked title at the end |
| Titles.HandleTitleChange | src/CalendarForm.js:27-33 | a checkbox click changes only the selection: it flips that one title, keeps the other titles in their order, and puts a newly ticked title last |
| Titles.AddNewTitle | src/CalendarForm.js:35-41 | an empty or already offered title changes nothing, the field included; otherwise the title is appended to both lists and the field is cleared |
| Titles.WithoutConcat | src/CalendarForm.js:30 | removing a title distributes over concatenation, so the other titles keep their order |
| Titles.RemoveUniqueAt | src/CalendarForm.js:30 | in a list without repeats, removing a title cuts out exactly its one position |
| Titles.ToggleTwiceAbsent | src/CalendarForm.js:31 | clicking an unticked title twice restores the exact selection |
| Titles.ToggleTwicePresent | src/CalendarForm.js:29-31 | clicking a ticked title twice restores the same set of titles but moves that title to the end |
| Titles.WithoutNoDuplicates | src/CalendarForm.js:30 | removing a title keeps a list free of repeats |
| Titles.ToggleNoDuplicates | src/CalendarForm.js:27-33 | a checkbox click keeps the selection free of repeats |
| Titles.HandleTitleChangeValid | src/CalendarForm.js:126-131 | clicking the checkbox of an offered title keeps both lists free of repeats and the selection within the offered titles |
| Titles.AddNewTitleValid | src/CalendarForm.js:35-41 | "Add Title" keeps both lists free of repeats and the selection within the offered titles |
| Titles.StepValid | src/CalendarForm.js:126-143 | every user action on the title part of the form keeps the invariant |
| Titles.RunValid | src/CalendarForm.js:27-41 | any sequence of user actions from a valid form keeps the invariant |
| Titles.ReachableValid | src/CalendarForm.js:24 | every form reachable from the opening one satisfies the invariant, because the selection starts equal to the titles |

## Left out

- Rendering and input wiring of the form. The only part kept is that a
  checkbox exists for each offered title, as the row index of
  `Titles.Click`. Typing into the field is the `Titles.Type` action, which
  sets the field and nothing else.
- The iCalendar library (`ical-generator`), its event records and its text
  serialisation. It is a foreign library whose output is not modelled. The
  calendar is a sequence of `Schedule.Block` values.
- The download through a Blob, an object URL and a clicked link. This is
  browser I/O.
- JavaScript `Date` behaviour: time zones, daylight-saving shifts,
  `setDate` rolling over month ends, and the clock moving between the several
  `new Date()` calls. Days are fixed 1440-minute spans, and `getDay()` is the
  input `weekday`. That input is not required to cycle through 0..6.
- `Math.random`. Its draws are the input `rand`; uniformity is not modelled.
- Schedule.PickTitle: floors the exact product `r * |selected|`, while
  `generateICal` floors the floating-point product, which can round up to a
  whole number. For 7 titles and the draw 0.5714285714285714 `generateICal` picks
  index 4 and the model index 3. The title is still always a selected one, one
  exists exactly when the selection is non-empty, and the set of possible
  calendars is the same; only the draw-to-title mapping at such boundary draws
  differs.
- Schedule.Budget: `generateICal` multiplies by the floating-point quotient
  `percentage / 100`. For some percentages that product lands just below a
  whole number of minutes, so its budget can be one minute lower
  than the exact floor modelled here.
- Coercion of `days` and `percentage` from the text of number inputs. Both are
  integers here, and fractional percentages are not modelled.
- The default `days` (21) and `percentage` (60) state values. `Generate` takes
  both as parameters.

## Findings

| source | as written | input that shows it | evidently intended | confidence | as-written member | corrected member |
|---|---|---|---|---|---|---|
| src/CalendarForm.js:45-49 | `lunchStart` and `workdayEnd` are built once from the generation date. Every scanned day's 09:00 and 14:00 is compared against them (lines 63 and 78), so every day after the first fails both loop guards and gets no blocks | `days = 2`, `percentage >= 1`, day offset 1 a weekday: no block at 09:00 on day offset 1 | each scanned workday is filled 09:00–13:00 and 14:00–17:00 of its own date, as the "Number of work-days" field suggests | high, not executed | IntendedFacts.SecondWorkdayDropped | IntendedFacts.IntendedFillsEveryWorkday |

=== FILE: clock.dfy ===
/** Wall-clock arithmetic of the calendar generator.

    A timestamp is a whole number of minutes counted from midnight of the day
    on which the calendar is generated, so `At(day, hour)` is `hour`:00 on the
    day `day` days later. Time zones and daylight-saving shifts are not part of
    this arithmetic. */
module Clock {

  const MinutesPerHour: int := 60
  const MinutesPerDay: int := 1440

  const WorkdayStartHour: int := 9
  const LunchStartHour: int := 13
  const LunchEndHour: int := 14
  const WorkdayEndHour: int := 17

  /** The timestamp of `hour`:00 on day offset `day`. */
  function At(day: int, hour: int): int {
    day * MinutesPerDay + hour * MinutesPerHour
  }

  /** The day offset a timestamp falls on. */
  function DayOf(ts: int): (d: int)
    ensures At(d, 0) <= ts < At(d + 1, 0)
  {
    ts / MinutesPerDay
  }

  /** `ts` falls on day offset `day`. */
  predicate OnDay(ts: int, day: int) {
    At(day, 0) <= ts < At(day + 1, 0)
  }

  /** Each timestamp falls on exactly one day offset. */
  lemma DayOfOnDay(ts: int, day: int)
    requires OnDay(ts, day)
    ensures DayOf(ts) == day
  {
  }

  /** `Date.getDay()` numbers Sunday 0 and Saturday 6. */
  predicate Weekend(weekday: int) {
    weekday == 0 || weekday == 6
  }
}

=== FILE: day_facts.dfy ===
/** Block-by-block properties of the day loop, under either anchoring of the
    window ends: which draw a block takes, how long it lasts, and which day
    and window it lies in. */
module DayFacts {
  import opened Clock
  import opened Schedule
  import opened FillFacts

  /** `b` lies inside the morning or the afternoon window of day offset `day`. */
  predicate InWindowsOf(b: Block, day: int) {
    (At(day, WorkdayStartHour) <= b.start && b.end <= At(day, LunchStartHour)) ||
    (At(day, LunchEndHour) <= b.start && b.end <= At(day, WorkdayEndHour))
  }

  /** `b` starts on one of the offsets `from` to `days - 1`, and that offset
      is not a Saturday or a Sunday. */
  predicate OnScannedWorkday(b: Block, from: nat, days: int, weekday: nat -> int) {
    from <= DayOf(b.start) < days && !Weekend(weekday(DayOf(b.start)))
  }

  /** `b` lies inside the morning or the afternoon window of its own day. */
  predicate InOwnDayWindows(b: Block) {
    InWindowsOf(b, DayOf(b.start))
  }

  /** What a block of the day loop satisfies when it falls on day offset `day`:
      it takes draw `k`, lasts 30 or 60 minutes, starts on that day, and under
      the per-day anchoring lies inside one window of that day. */
  predicate DayBlock(b: Block, k: nat, pick: nat -> Option<string>, day: int, anchor: Anchor) {
    b.title == pick(k) && (b.Minutes() == 30 || b.Minutes() == 60) &&
    OnDay(b.start, day) && (anchor == EachDay ==> InWindowsOf(b, day))
  }

  /** The `i`-th block of a fill that starts at `fromHour` on day `day` and stops
      by that day's `toHour` satisfies `DayBlock`, provided the per-day
      anchoring stops it exactly at `toHour`. */
  lemma HalfDayBlockAt(remaining: int, day: nat, fromHour: int, toHour: int, limit: int,
                       pick: nat -> Option<string>, draw: nat, anchor: Anchor, i: nat, k: nat)
    requires k == draw + i
    requires (fromHour == WorkdayStartHour && toHour == LunchStartHour) ||
             (fromHour == LunchEndHour && toHour == WorkdayEndHour)
    requires limit <= At(day, toHour)
    requires anchor == EachDay ==> limit == At(day, toHour)
    requires i < |Fill(remaining, At(day, fromHour), limit, pick, draw)|
    ensures DayBlock(Fill(remaining, At(day, fromHour), limit, pick, draw)[i], k, pick, day, anchor)
  {
    FillBlockAt(remaining, At(day, fromHour), limit, pick, draw, i);
    if anchor == EachDay {
      FillEndsByLimit(remaining, At(day, fromHour), limit, pick, draw);
    }
  }

  /** The window ends either anchoring compares against lie no later than the
      scanned day's own 13:00 and 17:00. */
  lemma LimitsBefore(anchor: Anchor, day: nat)
    ensures LunchStart(anchor, day) <= At(day, LunchStartHour)
    ensures WorkdayEnd(anchor, day) <= At(day, WorkdayEndHour)
  {
  }

  /** The morning fill of one scanned day. */
  function Morning(day: nat, morningBudget: int, pick: nat -> Option<string>, draw: nat,
                   anchor: Anchor): seq<Block> {
    Fill(morningBudget, At(day, WorkdayStartHour), LunchStart(anchor, day), pick, draw)
  }

  /** The afternoon fill of one scanned day, its draws numbered after the
      morning's. */
  function Afternoon(day: nat, morningBudget: int, afternoonBudget: int, pick: nat -> Option<string>,
                     draw: nat, anchor: Anchor): seq<Block> {
    Fill(afternoonBudget, At(day, LunchEndHour), WorkdayEnd(anchor, day), pick,
         draw + |Morning(day, morningBudget, pick, draw, anchor)|)
  }

  /** A scanned day is its morning followed by its afternoon. */
  lemma DayBlocksSplit(day: nat, morningBudget: int, afternoonBudget: int,
                       pick: nat -> Option<string>, draw: nat, anchor: Anchor)
    ensures DayBlocks(day, morningBudget, afternoonBudget, pick, draw, anchor)
      == Morning(day, morningBudget, pick, draw, anchor)
         + Afternoon(day, morningBudget, afternoonBudget, pick, draw, anchor)
  {
  }

  lemma MorningBlockAt(day: nat, morningBudget: int, pick: nat -> Option<string>, draw: nat,
                       anchor: Anchor, i: nat)
    requires i < |Morning(day, morningBudget, pick, draw, anchor)|
    ensures DayBlock(Morning(day, morningBudget, pick, draw, anchor)[i], draw + i, pick, day, anchor)
  {
    LimitsBefore(anchor, day);
    HalfDayBlockAt(morningBudget, day, WorkdayStartHour, LunchStartHour, LunchStart(anchor, day),
                   pick, draw, anchor, i, draw + i);
  }

  lemma AfternoonBlockAt(day: nat, morningBudget: int, afternoonBudget: int,
                         pick: nat -> Option<string>, draw: nat, anchor: Anchor, j: nat)
    requires j < |Afternoon(day, morningBudget, afternoonBudget, pick, draw, anchor)|
    ensures DayBlock(Afternoon(day, morningBudget, afternoonBudget, pick, draw, anchor)[j],
                     draw + |Morning(day, morningBudget, pick, draw, anchor)| + j, pick, day, anchor)
  {
    var m := |Morning(day, morningBudget, pick, draw, anchor)|;
    LimitsBefore(anchor, day);
    HalfDayBlockAt(afternoonBudget, day, LunchEndHour, WorkdayEndHour, WorkdayEnd(anchor, day),
                   pick, draw + m, anchor, j, draw + m + j);
  }

  /** Block `i` of one scanned day takes draw `draw + i`, lasts 30 or 60
      minutes and starts on that day; under the per-day anchoring it lies
      inside one window of that day. */
  lemma DayBlockAt(day: nat, morningBudget: int, afternoonBudget: int,
                   pick: nat -> Option<string>, draw: nat, anchor: Anchor, i: nat)
    requires i < |DayBlocks(day, morningBudget, afternoonBudget, pick, draw, anchor)|
    ensures DayBlock(DayBlocks(day, morningBudget, afternoonBudget, pick, draw, anchor)[i],
                     draw + i, pick, day, anchor)
  {
    var morning := Morning(day, morningBudget, pick, draw, anchor);
    var afternoon := Afternoon(day, morningBudget, afternoonBudget, pick, draw, anchor);
    DayBlocksSplit(day, morningBudget, afternoonBudget, pick, draw, anchor);
    if i < |morning| {
      MorningBlockAt(day, morningBudget, pick, draw, anchor, i);
      assert (morning + afternoon)[i] == morning[i];
    } else {
      var j := i - |morning|;
      AfternoonBlockAt(day, morningBudget, afternoonBudget, pick, draw, anchor, j);
      assert (morning + afternoon)[i] == afternoon[j];
    }
  }

  /** Block `i` of the day loop from offset `day` falls on a day offset `d`
      from `day` to `days - 1` that is not a Saturday or a Sunday, takes draw
      `draw + i` and lasts 30 or 60 minutes -- so the loop runs over exactly
      the offsets `day` to `days - 1`, and a weekend in that range costs
      workdays instead of extending it. Under the per-day anchoring the block
      also lies inside one window of day `d`. */
  lemma {:induction false} DaysBlockAt(day: nat, days: int, morningBudget: int, afternoonBudget: int,
                                       weekday: nat -> int, pick: nat -> Option<string>, draw: nat,
                                       anchor: Anchor, i: nat) returns (d: nat)
    requires i < |Days(day, days, morningBudget, afternoonBudget, weekday, pick, draw, anchor)|
    ensures day <= d < days && !Weekend(weekday(d))
    ensures DayBlock(Days(day, days, morningBudget, afternoonBudget, weekday, pick, draw, anchor)[i],
                     draw + i, pick, d, anchor)
    decreases days - day
  {
    if Weekend(weekday(day)) {
      d := DaysBlockAt(day + 1, days, morningBudget, afternoonBudget, weekday, pick, draw, anchor, i);
    } else {
      var today := DayBlocks(day, morningBudget, afternoonBudget, pick, draw, anchor);
      var rest := Days(day + 1, days, morningBudget, afternoonBudget, weekday, pick, draw + |today|, anchor);
      assert Days(day, days, morningBudget, afternoonBudget, weekday, pick, draw, anchor) == today + rest;
      if i < |today| {
        DayBlockAt(day, morningBudget, afternoonBudget, pick, draw, anchor, i);
        assert (today + rest)[i] == today[i];
        d := day;
      } else {
        var j := i - |today|;
        d := DaysBlockAt(day + 1, days, morningBudget, afternoonBudget, weekday, pick, draw + |today|,
                         anchor, j);
        assert (today + rest)[i] == rest[j];
        assert draw + |today| + j == draw + i;
      }
    }
  }

  /** The per-day facts of `DaysBlockAt`, stated through the day a block's
      start falls on. */
  lemma DaysBlockOn(day: nat, days: int, morningBudget: int, afternoonBudget: int,
                    weekday: nat -> int, pick: nat -> Option<string>, draw: nat, anchor: Anchor, i: nat)
    requires i < |Days(day, days, morningBudget, afternoonBudget, weekday, pick, draw, anchor)|
    ensures var b := Days(day, days, morningBudget, afternoonBudget, weekday, pick, draw, anchor)[i];
      b.title == pick(draw + i) && (b.Minutes() == 30 || b.Minutes() == 60) &&
      OnScannedWorkday(b, day, days, weekday) && (anchor == EachDay ==> InOwnDayWindows(b))
  {
    var d := DaysBlockAt(day, days, morningBudget, afternoonBudget, weekday, pick, draw, anchor, i);
    var b := Days(day, days, morningBudget, afternoonBudget, weekday, pick, draw, anchor)[i];
    DayOfOnDay(b.start, d);
  }
}

=== FILE: fill_facts.dfy ===
/** Properties of one half-day fill loop: where its blocks end, how many
    minutes they cover, and that they follow each other in time. */
module FillFacts {
  import opened Schedule

  /** The minutes covered by `blocks`, block by block. */
  function Total(blocks: seq<Block>): int {
    if |blocks| == 0 then 0 else blocks[0].Minutes() + Total(blocks[1..])
  }

  /** The least multiple of 30 that is at least `x`. */
  function RoundUp30(x: int): (r: int)
    ensures r % 30 == 0
    ensures x <= r < x + 30
  {
    (x + 29) / 30 * 30
  }

  function Min(a: int, b: int): int {
    if a <= b then a else b
  }

  /** The gap left before `limit` lies on the fill's grid: a multiple of 60
      while 60-minute blocks are still possible, a multiple of 30 once the
      budget is below 60. Both windows of `generateICal` start this way. */
  predicate OnGrid(remaining: int, t: int, limit: int) {
    (limit - t) % 60 == 0 || ((limit - t) % 30 == 0 && remaining < 60)
  }

  /** One iteration of the fill loop: a block of `BlockLength(remaining)`
      minutes at `t`, then the loop on what is left. */
  lemma FillUnfold(remaining: int, t: int, limit: int, pick: nat -> Option<string>, draw: nat)
    requires t < limit && remaining > 0
    ensures var d := BlockLength(remaining);
      Fill(remaining, t, limit, pick, draw)
        == [Block(t, t + d, pick(draw))] + Fill(remaining - d, t + d, limit, pick, draw + 1)
  {
  }

  /** Block `i` of the fill starts inside the window, before `limit`, lasts
      30 or 60 minutes and takes draw `draw + i`. */
  lemma {:induction false} FillBlockAt(remaining: int, t: int, limit: int,
                                       pick: nat -> Option<string>, draw: nat, i: nat)
    requires i < |Fill(remaining, t, limit, pick, draw)|
    ensures var b := Fill(remaining, t, limit, pick, draw)[i];
      t <= b.start < limit && (b.Minutes() == 30 || b.Minutes() == 60) && b.title == pick(draw + i)
    decreases i
  {
    var d := BlockLength(remaining);
    var rest := Fill(remaining - d, t + d, limit, pick, draw + 1);
    FillUnfold(remaining, t, limit, pick, draw);
    if i > 0 {
      FillBlockAt(remaining - d, t + d, limit, pick, draw + 1, i - 1);
      assert Fill(remaining, t, limit, pick, draw)[i] == rest[i - 1];
    }
  }

  /** The fill's blocks are back to back: the first starts at `t`, each
      later one where the one before it ends. */
  lemma {:induction false} FillContiguous(remaining: int, t: int, limit: int,
                                          pick: nat -> Option<string>, draw: nat, i: nat)
    requires i < |Fill(remaining, t, limit, pick, draw)|
    ensures var r := Fill(remaining, t, limit, pick, draw);
      r[i].start == if i == 0 then t else r[i - 1].end
    decreases i
  {
    var d := BlockLength(remaining);
    var rest := Fill(remaining - d, t + d, limit, pick, draw + 1);
    var r := Fill(remaining, t, limit, pick, draw);
    FillUnfold(remaining, t, limit, pick, draw);
    if i > 0 {
      FillContiguous(remaining - d, t + d, limit, pick, draw + 1, i - 1);
      assert r[i] == rest[i - 1];
      if i > 1 {
        assert r[i - 1] == rest[i - 2];
      }
    }
  }

  /** Each block of the fill lasts 60 minutes when the budget left at its
      start -- the budget less the minutes placed before it -- is at least 60,
      and 30 otherwise. */
  lemma {:induction false} FillBlockLength(remaining: int, t: int, limit: int,
                                           pick: nat -> Option<string>, draw: nat, i: nat)
    requires i < |Fill(remaining, t, limit, pick, draw)|
    ensures var b := Fill(remaining, t, limit, pick, draw)[i];
      b.Minutes() == BlockLength(remaining - (b.start - t))
    decreases i
  {
    var d := BlockLength(remaining);
    var rest := Fill(remaining - d, t + d, limit, pick, draw + 1);
    FillUnfold(remaining, t, limit, pick, draw);
    if i > 0 {
      var b := rest[i - 1];
      FillBlockLength(remaining - d, t + d, limit, pick, draw + 1, i - 1);
      assert Fill(remaining, t, limit, pick, draw)[i] == b;
      assert (remaining - d) - (b.start - (t + d)) == remaining - (b.start - t);
    }
  }

  /** No block of a fill started on the grid runs past `limit`: a block starts
      only before `limit`, and its length never exceeds the gap still left. */
  lemma {:induction false} FillEndsByLimit(remaining: int, t: int, limit: int,
                                           pick: nat -> Option<string>, draw: nat)
    requires OnGrid(remaining, t, limit)
    ensures forall i :: 0 <= i < |Fill(remaining, t, limit, pick, draw)| ==>
      Fill(remaining, t, limit, pick, draw)[i].end <= limit
    decreases if t < limit then limit - t else 0
  {
    if t < limit && remaining > 0 {
      var d := BlockLength(remaining);
      GridStep(remaining, limit - t, d);
      FillEndsByLimit(remaining - d, t + d, limit, pick, draw + 1);
    }
  }

  /** A fill started on the grid covers the budget rounded up to a multiple of
      30, but never more than the gap up to `limit`. */
  lemma {:induction false} FillTotal(remaining: int, t: int, limit: int,
                                     pick: nat -> Option<string>, draw: nat)
    requires OnGrid(remaining, t, limit)
    ensures Total(Fill(remaining, t, limit, pick, draw))
      == if remaining <= 0 || t >= limit then 0 else Min(RoundUp30(remaining), limit - t)
    decreases if t < limit then limit - t else 0
  {
    if t < limit && remaining > 0 {
      var d := BlockLength(remaining);
      var r := Fill(remaining, t, limit, pick, draw);
      var rest := Fill(remaining - d, t + d, limit, pick, draw + 1);
      assert r[1..] == rest;
      assert Total(r) == d + Total(rest);
      var gap := limit - t;
      GridStep(remaining, gap, d);
      FillTotal(remaining - d, t + d, limit, pick, draw + 1);
      TotalStep(remaining, gap, d, Total(rest));
    }
  }

  /** One iteration of the fill keeps the gap on the grid. */
  lemma GridStep(remaining: int, gap: int, d: int)
    requires 0 < remaining && 0 < gap
    requires d == BlockLength(remaining)
    requires gap % 60 == 0 || (gap % 30 == 0 && remaining < 60)
    ensures d <= gap
    ensures (gap - d) % 60 == 0 || ((gap - d) % 30 == 0 && remaining - d < 60)
  {
  }

  /** Rounding up commutes with adding an hour. */
  lemma RoundUp30Shift(x: int)
    ensures RoundUp30(x + 60) == RoundUp30(x) + 60
  {
    assert (x + 60 + 29) / 30 == (x + 29) / 30 + 2;
  }

  /** A budget of at most one half-hour rounds up to 30 minutes, one of more
      than a half-hour but at most an hour to 60. */
  lemma RoundUp30Small(x: int)
    requires 0 < x <= 60
    ensures RoundUp30(x) == if x <= 30 then 30 else 60
  {
    assert 0 < RoundUp30(x) < 90;
  }

  /** A positive multiple of 30 is at least 30. */
  lemma PositiveHalfHours(g: int)
    requires g > 0 && g % 30 == 0
    ensures g >= 30
  {
  }

  /** A budget that fits a gap of whole hours still fits it once rounded up. */
  lemma RoundUp30Within(x: int, gap: int)
    requires x <= gap && gap % 60 == 0
    ensures RoundUp30(x) <= gap
  {
    var r := RoundUp30(x);
    var h := gap / 60;
    assert r == 30 * (r / 30) && gap == 30 * (2 * h);
    assert r / 30 <= 2 * h;
  }

  /** One iteration of the fill, in minutes: a block of `d` followed by a
      fill of `restTotal` minutes covers what the whole fill promises. */
  lemma TotalStep(remaining: int, gap: int, d: int, restTotal: int)
    requires 0 < remaining && d <= gap
    requires d == BlockLength(remaining)
    requires gap % 60 == 0 || (gap % 30 == 0 && remaining < 60)
    requires restTotal == if remaining - d <= 0 || gap - d <= 0 then 0
                          else Min(RoundUp30(remaining - d), gap - d)
    ensures d + restTotal == Min(RoundUp30(remaining), gap)
  {
    if remaining >= 60 {
      RoundUp30Shift(remaining - 60);
      if remaining == 60 {
        RoundUp30Small(60);
      }
    } else {
      RoundUp30Small(remaining);
      if 30 < remaining {
        RoundUp30Small(remaining - 30);
        if gap > 30 {
          assert (gap - 30) % 30 == 0;
          PositiveHalfHours(gap - 30);
        }
      }
    }
  }

  /** Each block ends no later than any later block starts. */
  predicate Chronological(blocks: seq<Block>) {
    forall i, j :: 0 <= i < j < |blocks| ==> blocks[i].end <= blocks[j].start
  }

  /** A block put before a chronological run that starts after it ends keeps
      the run chronological. */
  lemma ChronologicalCons(first: Block, rest: seq<Block>)
    requires Chronological(rest)
    requires forall k :: 0 <= k < |rest| ==> first.end <= rest[k].start
    ensures Chronological([first] + rest)
  {
    var r := [first] + rest;
    forall i, j | 0 <= i < j < |r|
      ensures r[i].end <= r[j].start
    {
      assert r[j] == rest[j - 1];
      if i > 0 {
        assert r[i] == rest[i - 1];
      }
    }
  }

  /** Two chronological runs, the second starting after the first has ended,
      make one chronological run. */
  lemma ChronologicalConcat(a: seq<Block>, b: seq<Block>)
    requires Chronological(a) && Chronological(b)
    requires forall i, j :: 0 <= i < |a| && 0 <= j < |b| ==> a[i].end <= b[j].start
    ensures Chronological(a + b)
  {
    var r := a + b;
    forall i, j | 0 <= i < j < |r|
      ensures r[i].end <= r[j].start
    {
      if j < |a| {
        assert r[i] == a[i] && r[j] == a[j];
      } else if i >= |a| {
        assert r[i] == b[i - |a|] && r[j] == b[j - |a|];
      } else {
        assert r[i] == a[i] && r[j] == b[j - |a|];
      }
    }
  }

  lemma {:induction false} FillChronological(remaining: int, t: int, limit: int,
                                             pick: nat -> Option<string>, draw: nat)
    ensures Chronological(Fill(remaining, t, limit, pick, draw))
    decreases if t < limit then limit - t else 0
  {
    if t < limit && remaining > 0 {
      var d := BlockLength(remaining);
      var rest := Fill(remaining - d, t + d, limit, pick, draw + 1);
      assert Fill(remaining, t, limit, pick, draw) == [Block(t, t + d, pick(draw))] + rest;
      FillChronological(remaining - d, t + d, limit, pick, draw + 1);
      forall k | 0 <= k < |rest|
        ensures t + d <= rest[k].start
      {
        FillBlockAt(remaining - d, t + d, limit, pick, draw + 1, k);
      }
      ChronologicalCons(Block(t, t + d, pick(draw)), rest);
    }
  }
}

=== FILE: generate_facts.dfy ===
/** Properties of the calendar `generateICal` builds, with the lunch-start and
    workday-end instants fixed to the generation day as `generateICal` fixes them. */
module GenerateFacts {
  import opened Clock
  import opened Schedule
  import opened FillFacts
  import opened DayFacts

  /** The morning fill of the generation day: 09:00 up to 13:00. */
  function TodayMorning(percentage: int, selected: seq<string>, rand: nat -> real): seq<Block> {
    Fill(Budget(MorningMinutes, percentage), At(0, WorkdayStartHour), At(0, LunchStartHour),
         Draws(selected, rand), 0)
  }

  /** The afternoon fill of the generation day: 14:00 up to 17:00, its draws
      numbered from `draw`. */
  function TodayAfternoon(percentage: int, selected: seq<string>, rand: nat -> real, draw: nat): seq<Block> {
    Fill(Budget(AfternoonMinutes, percentage), At(0, LunchEndHour), At(0, WorkdayEndHour),
         Draws(selected, rand), draw)
  }

  /** Any positive percentage gives both budgets at least one minute, and a
      percentage up to 100 keeps each budget within its window. */
  lemma BudgetBounds(percentage: int)
    requires percentage >= 1
    ensures 0 < Budget(MorningMinutes, percentage) && 0 < Budget(AfternoonMinutes, percentage)
    ensures percentage <= 100 ==>
      Budget(MorningMinutes, percentage) <= MorningMinutes &&
      Budget(AfternoonMinutes, percentage) <= AfternoonMinutes
  {
    assert MorningMinutes == 240 && AfternoonMinutes == 180;
  }

  /** On every day after the generation day, 09:00 and 14:00 already lie past
      the generation day's 13:00 and 17:00, so both loops stop at once. */
  lemma {:induction false} LaterDaysEmpty(day: nat, days: int, morningBudget: int, afternoonBudget: int,
                                          weekday: nat -> int, pick: nat -> Option<string>, draw: nat)
    requires day >= 1
    ensures Days(day, days, morningBudget, afternoonBudget, weekday, pick, draw, GenerationDay) == []
    decreases days - day
  {
    if day < days {
      assert DayBlocks(day, morningBudget, afternoonBudget, pick, draw, GenerationDay) == [];
      LaterDaysEmpty(day + 1, days, morningBudget, afternoonBudget, weekday, pick, draw);
    }
  }

  /** The whole calendar is the generation day's morning and afternoon, or
      nothing when no day is scanned or the generation day is a weekend day. */
  lemma GenerateAsWritten(days: int, percentage: int, selected: seq<string>,
                          weekday: nat -> int, rand: nat -> real)
    ensures Generate(days, percentage, selected, weekday, rand)
      == if days >= 1 && !Weekend(weekday(0)) then
           var morning := TodayMorning(percentage, selected, rand);
           morning + TodayAfternoon(percentage, selected, rand, |morning|)
         else []
  {
    if days >= 1 {
      var mb := Budget(MorningMinutes, percentage);
      var ab := Budget(AfternoonMinutes, percentage);
      var pick := Draws(selected, rand);
      var morning := TodayMorning(percentage, selected, rand);
      var afternoon := TodayAfternoon(percentage, selected, rand, |morning|);
      LaterDaysEmpty(1, days, mb, ab, weekday, pick, 0);
      LaterDaysEmpty(1, days, mb, ab, weekday, pick, |morning| + |afternoon|);
      if !Weekend(weekday(0)) {
        assert DayBlocks(0, mb, ab, pick, 0, GenerationDay) == morning + afternoon;
      }
    }
  }

  /** Every block lasts 30 or 60 minutes and lies inside the morning window
      (09:00-13:00) or the afternoon window (14:00-17:00) of the generation
      day, whatever the percentage: no block crosses the lunch break. */
  lemma GenerateInWindows(days: int, percentage: int, selected: seq<string>,
                          weekday: nat -> int, rand: nat -> real)
    ensures forall b: Block :: b in Generate(days, percentage, selected, weekday, rand) ==>
      (b.Minutes() == 30 || b.Minutes() == 60) && InWindowsOf(b, 0)
  {
    GenerateAsWritten(days, percentage, selected, weekday, rand);
    var morning := TodayMorning(percentage, selected, rand);
    var afternoon := TodayAfternoon(percentage, selected, rand, |morning|);
    FillEndsByLimit(Budget(MorningMinutes, percentage), At(0, WorkdayStartHour),
                    At(0, LunchStartHour), Draws(selected, rand), 0);
    FillEndsByLimit(Budget(AfternoonMinutes, percentage), At(0, LunchEndHour),
                    At(0, WorkdayEndHour), Draws(selected, rand), |morning|);
    forall b: Block | b in morning + afternoon
      ensures (b.Minutes() == 30 || b.Minutes() == 60) && InWindowsOf(b, 0)
    {
      if b in morning {
        var i :| 0 <= i < |morning| && morning[i] == b;
        FillBlockAt(Budget(MorningMinutes, percentage), At(0, WorkdayStartHour),
                    At(0, LunchStartHour), Draws(selected, rand), 0, i);
      } else {
        var i :| 0 <= i < |afternoon| && afternoon[i] == b;
        FillBlockAt(Budget(AfternoonMinutes, percentage), At(0, LunchEndHour),
                    At(0, WorkdayEndHour), Draws(selected, rand), |morning|, i);
      }
    }
  }

  /** The blocks come out in time order and never overlap. */
  lemma GenerateChronological(days: int, percentage: int, selected: seq<string>,
                              weekday: nat -> int, rand: nat -> real)
    ensures Chronological(Generate(days, percentage, selected, weekday, rand))
  {
    GenerateAsWritten(days, percentage, selected, weekday, rand);
    var pick := Draws(selected, rand);
    var morning := TodayMorning(percentage, selected, rand);
    var afternoon := TodayAfternoon(percentage, selected, rand, |morning|);
    FillEndsByLimit(Budget(MorningMinutes, percentage), At(0, WorkdayStartHour),
                    At(0, LunchStartHour), pick, 0);
    FillChronological(Budget(MorningMinutes, percentage), At(0, WorkdayStartHour),
                      At(0, LunchStartHour), pick, 0);
    FillChronological(Budget(AfternoonMinutes, percentage), At(0, LunchEndHour),
                      At(0, WorkdayEndHour), pick, |morning|);
    forall i, j | 0 <= i < |morning| && 0 <= j < |afternoon|
      ensures morning[i].end <= afternoon[j].start
    {
      FillBlockAt(Budget(AfternoonMinutes, percentage), At(0, LunchEndHour),
                  At(0, WorkdayEndHour), pick, |morning|, j);
    }
    ChronologicalConcat(morning, afternoon);
  }

  /** The `i`-th block takes the `i`-th call of `Math.random()`. With every
      draw in [0, 1), every title is one of the selected titles; with nothing
      selected, every summary is undefined. */
  lemma GenerateTitles(days: int, percentage: int, selected: seq<string>,
                       weekday: nat -> int, rand: nat -> real)
    requires forall k: nat :: 0.0 <= rand(k) < 1.0
    ensures var r := Generate(days, percentage, selected, weekday, rand);
      forall i :: 0 <= i < |r| ==> r[i].title == PickTitle(selected, rand(i))
    ensures |selected| > 0 ==> forall b: Block :: b in Generate(days, percentage, selected, weekday, rand) ==>
      b.title.Some? && b.title.value in selected
    ensures |selected| == 0 ==> forall b: Block :: b in Generate(days, percentage, selected, weekday, rand) ==>
      b.title == None
  {
    var r := Generate(days, percentage, selected, weekday, rand);
    forall i | 0 <= i < |r|
      ensures r[i].title == PickTitle(selected, rand(i))
    {
      DaysBlockOn(0, days, Budget(MorningMinutes, percentage), Budget(AfternoonMinutes, percentage),
                  weekday, Draws(selected, rand), 0, GenerationDay, i);
    }
    forall b: Block | b in r
      ensures |selected| > 0 ==> b.title.Some? && b.title.value in selected
      ensures |selected| == 0 ==> b.title == None
    {
      var i :| 0 <= i < |r| && r[i] == b;
      assert b.title == PickTitle(selected, rand(i));
    }
  }

  /** Every block lies on a scanned day that is not a Saturday or a Sunday. */
  lemma GenerateOnScannedWorkdays(days: int, percentage: int, selected: seq<string>,
                                  weekday: nat -> int, rand: nat -> real)
    ensures var r := Generate(days, percentage, selected, weekday, rand);
      forall i :: 0 <= i < |r| ==> OnScannedWorkday(r[i], 0, days, weekday)
  {
    var r := Generate(days, percentage, selected, weekday, rand);
    forall i | 0 <= i < |r|
      ensures OnScannedWorkday(r[i], 0, days, weekday)
    {
      DaysBlockOn(0, days, Budget(MorningMinutes, percentage), Budget(AfternoonMinutes, percentage),
                  weekday, Draws(selected, rand), 0, GenerationDay, i);
    }
  }

  /** A budget that fits a window of whole hours is covered exactly up to the
      next multiple of 30. */
  lemma WindowTotal(budget: int, t: int, limit: int, pick: nat -> Option<string>, draw: nat)
    requires 0 < budget <= limit - t && (limit - t) % 60 == 0
    ensures var total := Total(Fill(budget, t, limit, pick, draw));
      total == RoundUp30(budget) && budget <= total < budget + 30
  {
    RoundUp30Within(budget, limit - t);
    FillTotal(budget, t, limit, pick, draw);
  }

  /** For a percentage from 1 to 100 each half-day of the generation day is
      filled to its budget rounded up to a multiple of 30: never less than the
      budget and less than 30 minutes over it. */
  lemma OvershootUnder30(percentage: int, selected: seq<string>, rand: nat -> real, draw: nat)
    requires 1 <= percentage <= 100
    ensures var b := Budget(MorningMinutes, percentage);
      var total := Total(TodayMorning(percentage, selected, rand));
      total == RoundUp30(b) && b <= total < b + 30
    ensures var b := Budget(AfternoonMinutes, percentage);
      var total := Total(TodayAfternoon(percentage, selected, rand, draw));
      total == RoundUp30(b) && b <= total < b + 30
  {
    BudgetBounds(percentage);
    WindowTotal(Budget(MorningMinutes, percentage), At(0, WorkdayStartHour), At(0, LunchStartHour),
                Draws(selected, rand), 0);
    WindowTotal(Budget(AfternoonMinutes, percentage), At(0, LunchEndHour), At(0, WorkdayEndHour),
                Draws(selected, rand), draw);
  }

  /** At 1 percent the budgets are 2 and 1 minutes, yet each half-day still
      gets one 30-minute block. */
  lemma OnePercentQuirk(days: int, selected: seq<string>, weekday: nat -> int, rand: nat -> real)
    requires days >= 1 && !Weekend(weekday(0))
    ensures Generate(days, 1, selected, weekday, rand)
      == [Block(At(0, WorkdayStartHour), At(0, WorkdayStartHour) + 30, PickTitle(selected, rand(0))),
          Block(At(0, LunchEndHour), At(0, LunchEndHour) + 30, PickTitle(selected, rand(1)))]
  {
    GenerateAsWritten(days, 1, selected, weekday, rand);
    assert Budget(MorningMinutes, 1) == 2 && Budget(AfternoonMinutes, 1) == 1;
    assert TodayMorning(1, selected, rand) == [Block(At(0, WorkdayStartHour), At(0, WorkdayStartHour) + 30, PickTitle(selected, rand(0)))];
  }

  /** At 100 percent, a window of `k` hours from `t` is tiled by `k`
      hour-long blocks, each titled by its own draw. */
  lemma {:induction false} FullWindow(k: nat, t: int, pick: nat -> Option<string>, draw: nat)
    ensures var r := Fill(60 * k, t, t + 60 * k, pick, draw);
      |r| == k && forall i :: 0 <= i < k ==> r[i] == Block(t + 60 * i, t + 60 * i + 60, pick(draw + i))
  {
    if k > 0 {
      FullWindow(k - 1, t + 60, pick, draw + 1);
      assert Fill(60 * k, t, t + 60 * k, pick, draw)
        == [Block(t, t + 60, pick(draw))] + Fill(60 * (k - 1), t + 60, t + 60 + 60 * (k - 1), pick, draw + 1);
    }
  }

  /** A single selected title is the title of every draw in [0, 1). */
  lemma SingleTitle(title: string, rand: nat -> real)
    requires forall k: nat :: 0.0 <= rand(k) < 1.0
    ensures forall k: nat :: Draws([title], rand)(k) == Some(title)
  {
    forall k: nat
      ensures Draws([title], rand)(k) == Some(title)
    {
      var t := PickTitle([title], rand(k));
      assert t.Some? && t.value in [title];
    }
  }

  /** At 100 percent the generation day's morning is four hour-long blocks. */
  lemma MorningAtFull(selected: seq<string>, rand: nat -> real)
    ensures var p, m := Draws(selected, rand), At(0, WorkdayStartHour);
      TodayMorning(100, selected, rand)
        == [Block(m, m + 60, p(0)), Block(m + 60, m + 120, p(1)), Block(m + 120, m + 180, p(2)),
            Block(m + 180, m + 240, p(3))]
  {
    assert Budget(MorningMinutes, 100) == 60 * 4;
    FullWindow(4, At(0, WorkdayStartHour), Draws(selected, rand), 0);
  }

  /** At 100 percent the generation day's afternoon is three hour-long blocks. */
  lemma AfternoonAtFull(selected: seq<string>, rand: nat -> real, draw: nat)
    ensures var p, n := Draws(selected, rand), At(0, LunchEndHour);
      TodayAfternoon(100, selected, rand, draw)
        == [Block(n, n + 60, p(draw)), Block(n + 60, n + 120, p(draw + 1)), Block(n + 120, n + 180, p(draw + 2))]
  {
    assert Budget(AfternoonMinutes, 100) == 60 * 3;
    FullWindow(3, At(0, LunchEndHour), Draws(selected, rand), draw);
  }

  /** Any number of scanned days at 100 percent with a single selected title:
      the morning gets four hour-long blocks and the afternoon three, all with
      that title -- on the generation day only, however many days are scanned. */
  lemma FullOccupancyScenario(days: int, title: string, weekday: nat -> int, rand: nat -> real)
    requires forall k: nat :: 0.0 <= rand(k) < 1.0
    requires days >= 1 && !Weekend(weekday(0))
    ensures var a, m, n := Some(title), At(0, WorkdayStartHour), At(0, LunchEndHour);
      Generate(days, 100, [title], weekday, rand)
        == [Block(m, m + 60, a), Block(m + 60, m + 120, a), Block(m + 120, m + 180, a),
            Block(m + 180, m + 240, a),
            Block(n, n + 60, a), Block(n + 60, n + 120, a), Block(n + 120, n + 180, a)]
  {
    var p := Draws([title], rand);
    var a := Some(title);
    SingleTitle(title, rand);
    assert p(0) == a && p(1) == a && p(2) == a && p(3) == a && p(4) == a && p(5) == a && p(6) == a;
    GenerateAsWritten(days, 100, [title], weekday, rand);
    MorningAtFull([title], rand);
    var morning := TodayMorning(100, [title], rand);
    assert |morning| == 4;
    AfternoonAtFull([title], rand, 4);
  }
}

=== FILE: intended_facts.dfy ===
/** The calendar as it would come out if every scanned day were compared with
    its own 13:00 and 17:00, set against the calendar `generateICal` builds, where
    both instants stay on the generation day. */
module IntendedFacts {
  import opened Clock
  import opened Schedule
  import opened FillFacts
  import opened DayFacts
  import opened GenerateFacts

  /** Some block of `r` starts at `ts`. */
  predicate HasStart(r: seq<Block>, ts: int) {
    exists i :: 0 <= i < |r| && r[i].start == ts
  }

  lemma HasStartConcat(a: seq<Block>, b: seq<Block>, ts: int)
    requires HasStart(a, ts) || HasStart(b, ts)
    ensures HasStart(a + b, ts)
  {
    if HasStart(a, ts) {
      var i :| 0 <= i < |a| && a[i].start == ts;
      assert (a + b)[i] == a[i];
    } else {
      var i :| 0 <= i < |b| && b[i].start == ts;
      assert (a + b)[|a| + i] == b[i];
    }
  }

  /** A fill with budget left and room before its limit opens with a block at
      its starting instant. */
  lemma FillOpensAtStart(remaining: int, t: int, limit: int, pick: nat -> Option<string>, draw: nat)
    requires remaining > 0 && t < limit
    ensures HasStart(Fill(remaining, t, limit, pick, draw), t)
  {
    assert Fill(remaining, t, limit, pick, draw)[0].start == t;
  }

  /** Under the per-day anchoring, a scanned workday with both budgets
      positive has a block at 09:00 and one at 14:00. */
  lemma IntendedDayStarts(day: nat, morningBudget: int, afternoonBudget: int,
                          pick: nat -> Option<string>, draw: nat)
    requires morningBudget > 0 && afternoonBudget > 0
    ensures HasStart(DayBlocks(day, morningBudget, afternoonBudget, pick, draw, EachDay),
                     At(day, WorkdayStartHour))
    ensures HasStart(DayBlocks(day, morningBudget, afternoonBudget, pick, draw, EachDay),
                     At(day, LunchEndHour))
  {
    var morning := Morning(day, morningBudget, pick, draw, EachDay);
    var afternoon := Afternoon(day, morningBudget, afternoonBudget, pick, draw, EachDay);
    DayBlocksSplit(day, morningBudget, afternoonBudget, pick, draw, EachDay);
    FillOpensAtStart(morningBudget, At(day, WorkdayStartHour), At(day, LunchStartHour), pick, draw);
    FillOpensAtStart(afternoonBudget, At(day, LunchEndHour), At(day, WorkdayEndHour), pick,
                     draw + |morning|);
    HasStartConcat(morning, afternoon, At(day, WorkdayStartHour));
    HasStartConcat(morning, afternoon, At(day, LunchEndHour));
  }

  /** Under the per-day anchoring, every scanned workday from offset `day` on
      gets a block at 09:00 and one at 14:00. */
  lemma {:induction false} IntendedCoversWorkday(day: nat, days: int, morningBudget: int, afternoonBudget: int,
                                                 weekday: nat -> int, pick: nat -> Option<string>, draw: nat,
                                                 target: nat)
    requires day <= target < days && !Weekend(weekday(target))
    requires morningBudget > 0 && afternoonBudget > 0
    ensures var r := Days(day, days, morningBudget, afternoonBudget, weekday, pick, draw, EachDay);
      HasStart(r, At(target, WorkdayStartHour)) && HasStart(r, At(target, LunchEndHour))
    decreases days - day
  {
    var today := DayBlocks(day, morningBudget, afternoonBudget, pick, draw, EachDay);
    if Weekend(weekday(day)) {
      IntendedCoversWorkday(day + 1, days, morningBudget, afternoonBudget, weekday, pick, draw, target);
    } else {
      var rest := Days(day + 1, days, morningBudget, afternoonBudget, weekday, pick, draw + |today|, EachDay);
      assert Days(day, days, morningBudget, afternoonBudget, weekday, pick, draw, EachDay) == today + rest;
      if target == day {
        IntendedDayStarts(day, morningBudget, afternoonBudget, pick, draw);
      } else {
        IntendedCoversWorkday(day + 1, days, morningBudget, afternoonBudget, weekday, pick, draw + |today|,
                              target);
      }
      HasStartConcat(today, rest, At(target, WorkdayStartHour));
      HasStartConcat(today, rest, At(target, LunchEndHour));
    }
  }

  /** With each day compared against its own 13:00 and 17:00, every block lies
      on a scanned workday, inside one window of that day, and every scanned
      workday gets a block at 09:00 and one at 14:00 for any positive
      percentage. */
  lemma IntendedFillsEveryWorkday(days: int, percentage: int, selected: seq<string>,
                                  weekday: nat -> int, rand: nat -> real)
    ensures var r := GenerateIntended(days, percentage, selected, weekday, rand);
      forall i :: 0 <= i < |r| ==> OnScannedWorkday(r[i], 0, days, weekday) && InOwnDayWindows(r[i])
    ensures percentage >= 1 ==> forall d: nat :: d < days && !Weekend(weekday(d)) ==>
      HasStart(GenerateIntended(days, percentage, selected, weekday, rand), At(d, WorkdayStartHour)) &&
      HasStart(GenerateIntended(days, percentage, selected, weekday, rand), At(d, LunchEndHour))
  {
    var mb := Budget(MorningMinutes, percentage);
    var ab := Budget(AfternoonMinutes, percentage);
    var pick := Draws(selected, rand);
    var r := GenerateIntended(days, percentage, selected, weekday, rand);
    forall i | 0 <= i < |r|
      ensures OnScannedWorkday(r[i], 0, days, weekday) && InOwnDayWindows(r[i])
    {
      DaysBlockOn(0, days, mb, ab, weekday, pick, 0, EachDay, i);
    }
    if percentage >= 1 {
      BudgetBounds(percentage);
      forall d: nat | d < days && !Weekend(weekday(d))
        ensures HasStart(r, At(d, WorkdayStartHour)) && HasStart(r, At(d, LunchEndHour))
      {
        IntendedCoversWorkday(0, days, mb, ab, weekday, pick, 0, d);
      }
    }
  }

  /** Two scanned days, the second a workday: the calendar of `generateICal` has no
      block at 09:00 on the second day, since that day is compared against
      the generation day's 13:00. */
  lemma SecondWorkdayDropped(percentage: int, selected: seq<string>, weekday: nat -> int, rand: nat -> real)
    requires percentage >= 1 && !Weekend(weekday(1))
    ensures !HasStart(Generate(2, percentage, selected, weekday, rand), At(1, WorkdayStartHour))
  {
    var r := Generate(2, percentage, selected, weekday, rand);
    GenerateInWindows(2, percentage, selected, weekday, rand);
    forall i | 0 <= i < |r|
      ensures r[i].start != At(1, WorkdayStartHour)
    {
      assert r[i] in r;
    }
  }

  /** The same two days compared each against its own 13:00 and 17:00: the
      second day does get its 09:00 block. */
  lemma SecondWorkdayKept(percentage: int, selected: seq<string>, weekday: nat -> int, rand: nat -> real)
    requires percentage >= 1 && !Weekend(weekday(1))
    ensures HasStart(GenerateIntended(2, percentage, selected, weekday, rand), At(1, WorkdayStartHour))
  {
    IntendedFillsEveryWorkday(2, percentage, selected, weekday, rand);
  }
}

=== FILE: schedule.dfy ===
/** The schedule generator of the calendar form: for every scanned day it fills
    the morning and the afternoon with back-to-back meeting blocks until the
    occupancy budget of that half-day is spent.

    The current date, `Date.getDay()` and `Math.random()` are inputs here:
    `weekday(d)` is the weekday number of day offset `d`, and `rand(k)` is the
    value the `k`-th call of `Math.random()` returns during one generation. */
module Schedule {
  import opened Clock

  datatype Option<T> = None | Some(value: T)

  /** One calendar event. `title` is `None` where `generateICal` reads an index
      outside the selected titles and so passes `undefined` as the summary. */
  datatype Block = Block(start: int, end: int, title: Option<string>) {
    function Minutes(): int {
      end - start
    }
  }

  /** Which day the lunch-start and workday-end comparisons refer to. `generateICal`
      builds both once, from the generation day (`GenerationDay`); `EachDay` is
      the reading where every scanned day is compared with its own 13:00 and
      17:00. */
  datatype Anchor = GenerationDay | EachDay

  /** Length of the morning window, 09:00 to 13:00. */
  const MorningMinutes: int := (LunchStartHour - WorkdayStartHour) * MinutesPerHour
  /** Length of the afternoon window, 14:00 to 17:00. */
  const AfternoonMinutes: int := (WorkdayEndHour - LunchEndHour) * MinutesPerHour

  /** The occupied minutes a window of `windowMinutes` gets at `percentage`
      percent: the floor of `windowMinutes * percentage / 100`. */
  function Budget(windowMinutes: int, percentage: int): (b: int)
    ensures b * 100 <= windowMinutes * percentage < b * 100 + 100
  {
    windowMinutes * percentage / 100
  }

  /** The length of the next block when `remaining` minutes of budget are left. */
  function BlockLength(remaining: int): int {
    if remaining >= 60 then 60 else 30
  }

  /** The title at index `floor(r * |selected|)`, taken on the exact real
      product; `None` when that index is outside `selected`. For a draw in
      [0, 1) and a non-empty selection the index is always inside. The
      floating-point product of `generateICal` can round up to the next whole
      number, so at such a boundary draw it names the following title. */
  function PickTitle(selected: seq<string>, r: real): (t: Option<string>)
    ensures t.Some? ==> t.value in selected
    ensures 0.0 <= r < 1.0 ==> (t.Some? <==> |selected| > 0)
  {
    var i := (r * |selected| as real).Floor;
    assert 0.0 <= r < 1.0 && |selected| > 0 ==> 0 <= i < |selected| by {
      if 0.0 <= r < 1.0 && |selected| > 0 {
        FloorIndexInRange(r, |selected|);
      }
    }
    if 0 <= i < |selected| then Some(selected[i]) else None
  }

  /** For 0 <= r < 1 and n > 0, `Math.floor(r * n)` is an index into a
      sequence of length n. */
  lemma FloorIndexInRange(r: real, n: int)
    requires 0.0 <= r < 1.0 && n > 0
    ensures 0 <= (r * n as real).Floor < n
  {
    var x := r * n as real;
    assert 0.0 <= x;
    assert x < n as real by {
      assert (1.0 - r) * (n as real) > 0.0;
    }
  }

  /** The title of every draw: `pick(k)` is the title the `k`-th block gets,
      from the `k`-th call of `Math.random()`. */
  function Draws(selected: seq<string>, rand: nat -> real): nat -> Option<string> {
    (k: nat) => PickTitle(selected, rand(k))
  }

  /** One half-day fill loop: starting at `t` with `remaining` minutes of budget,
      emit a block while `t` is before `limit` and budget is left; each block
      takes the next draw, numbered from `draw`. */
  function Fill(remaining: int, t: int, limit: int, pick: nat -> Option<string>, draw: nat): (r: seq<Block>)
    decreases if t < limit then limit - t else 0
    ensures |r| == 0 <==> t >= limit || remaining <= 0
  {
    if t < limit && remaining > 0 then
      var d := BlockLength(remaining);
      [Block(t, t + d, pick(draw))] + Fill(remaining - d, t + d, limit, pick, draw + 1)
    else
      []
  }

  /** The 13:00 the morning loop compares against, for day offset `day`. */
  function LunchStart(anchor: Anchor, day: int): int {
    match anchor
    case GenerationDay => At(0, LunchStartHour)
    case EachDay => At(day, LunchStartHour)
  }

  /** The 17:00 the afternoon loop compares against, for day offset `day`. */
  function WorkdayEnd(anchor: Anchor, day: int): int {
    match anchor
    case GenerationDay => At(0, WorkdayEndHour)
    case EachDay => At(day, WorkdayEndHour)
  }

  /** The blocks of day offset `day` when its weekday is not skipped: the
      morning fill from 09:00 with `morningBudget` minutes, then the afternoon
      fill from 14:00 with `afternoonBudget` minutes. */
  function DayBlocks(day: int, morningBudget: int, afternoonBudget: int,
                     pick: nat -> Option<string>, draw: nat, anchor: Anchor): (r: seq<Block>)
  {
    var morning := Fill(morningBudget, At(day, WorkdayStartHour), LunchStart(anchor, day), pick, draw);
    var afternoon := Fill(afternoonBudget, At(day, LunchEndHour), WorkdayEnd(anchor, day),
                          pick, draw + |morning|);
    morning + afternoon
  }

  /** The day loop from offset `day` up to, not including, `days`; weekend
      offsets are skipped but still consume an iteration. The budgets are the
      same on every day, so they are computed once by the caller. */
  function Days(day: nat, days: int, morningBudget: int, afternoonBudget: int,
                weekday: nat -> int, pick: nat -> Option<string>, draw: nat, anchor: Anchor): (r: seq<Block>)
    decreases days - day
  {
    if day >= days then
      []
    else if Weekend(weekday(day)) then
      Days(day + 1, days, morningBudget, afternoonBudget, weekday, pick, draw, anchor)
    else
      var today := DayBlocks(day, morningBudget, afternoonBudget, pick, draw, anchor);
      today + Days(day + 1, days, morningBudget, afternoonBudget, weekday, pick, draw + |today|, anchor)
  }

  /** The calendar `generateICal` builds, as written: window ends anchored to
      the generation day. */
  function Generate(days: int, percentage: int, selected: seq<string>,
                    weekday: nat -> int, rand: nat -> real): seq<Block>
  {
    Days(0, days, Budget(MorningMinutes, percentage), Budget(AfternoonMinutes, percentage),
         weekday, Draws(selected, rand), 0, GenerationDay)
  }

  /** The calendar with every day compared against its own 13:00 and 17:00. */
  function GenerateIntended(days: int, percentage: int, selected: seq<string>,
                            weekday: nat -> int, rand: nat -> real): seq<Block>
  {
    Days(0, days, Budget(MorningMinutes, percentage), Budget(AfternoonMinutes, percentage),
         weekday, Draws(selected, rand), 0, EachDay)
  }
}

=== FILE: titles.dfy ===
/** The meeting-title lists of the calendar form: the titles on offer, the
    titles ticked for generation, and the text typed into the "Add new title"
    field. The form offers one checkbox per title, and ticking or unticking it
    toggles that title in the selection. */
module Titles {

  datatype Form = Form(titles: seq<string>, selected: seq<string>, newTitle: string)

  predicate NoDuplicates(s: seq<string>) {
    forall i, j :: 0 <= i < j < |s| ==> s[i] != s[j]
  }

  /** What every reachable form keeps: neither list repeats a title, and only
      offered titles are selected. */
  predicate Valid(f: Form) {
    NoDuplicates(f.titles) && NoDuplicates(f.selected) &&
    forall x :: x in f.selected ==> x in f.titles
  }

  /** The titles on offer when the form opens. */
  const DefaultTitles: seq<string> := [
    "Data Management Meeting",
    "Reporting Standards Project Meeting",
    "Data Analysis Session",
    "Project Planning Meeting",
    "Standards Review Meeting",
    "Data Quality Assurance Meeting",
    "Reporting Strategy Session",
    "Data Governance Workshop",
    "Analytics Review Meeting",
    "Project Coordination Meeting",
    "Standards Compliance Discussion",
    "Data Integration Planning",
    "Reporting Tools Training",
    "Data Security Briefing",
    "Performance Metrics Review"
  ]

  /** The form as it opens: fifteen titles, all of them selected, and an empty
      "Add new title" field. */
  function Initial(): (f: Form)
    ensures Valid(f)
    ensures |f.titles| == 15 && f.selected == f.titles && f.newTitle == ""
  {
    Form(DefaultTitles, DefaultTitles, "")
  }

  /** `s` with every occurrence of `x` removed, the rest in their order. */
  function Without(s: seq<string>, x: string): (r: seq<string>)
    ensures x !in r
    ensures forall y :: y != x ==> (y in r <==> y in s)
    ensures x !in s ==> r == s
  {
    if |s| == 0 then
      []
    else
      assert s == [s[0]] + s[1..];
      (if s[0] == x then [] else [s[0]]) + Without(s[1..], x)
  }

  /** The selection after clicking the checkbox of `x`: an unticked title is
      appended, a ticked one is removed. */
  function Toggle(s: seq<string>, x: string): (r: seq<string>)
    ensures x in r <==> x !in s
    ensures forall y :: y != x ==> (y in r <==> y in s)
    ensures Without(r, x) == Without(s, x)
    ensures x !in s ==> |r| == |s| + 1 && r[|s|] == x
  {
    if x in s then
      Without(s, x)
    else
      WithoutConcat(s, [x], x);
      assert Without([x], x) == [];
      s + [x]
  }

  /** Clicking the checkbox of `title`: only the selection changes. */
  function HandleTitleChange(f: Form, title: string): (g: Form)
    ensures g.titles == f.titles && g.newTitle == f.newTitle
    ensures title in g.selected <==> title !in f.selected
    ensures forall y :: y != title ==> (y in g.selected <==> y in f.selected)
    ensures Without(g.selected, title) == Without(f.selected, title)
    ensures title !in f.selected ==> |g.selected| == |f.selected| + 1 && g.selected[|f.selected|] == title
  {
    f.(selected := Toggle(f.selected, title))
  }

  /** Clicking "Add Title": a non-empty title not yet on offer is appended to
      both lists and the field is cleared; otherwise nothing changes, the
      field included. */
  function AddNewTitle(f: Form): (g: Form)
    ensures f.newTitle == "" || f.newTitle in f.titles ==> g == f
    ensures f.newTitle != "" && f.newTitle !in f.titles ==>
      g.titles == f.titles + [f.newTitle] && g.selected == f.selected + [f.newTitle] && g.newTitle == ""
  {
    if f.newTitle != "" && f.newTitle !in f.titles then
      Form(f.titles + [f.newTitle], f.selected + [f.newTitle], "")
    else
      f
  }

  /** Removing `x` distributes over concatenation, so it keeps the order of
      the other titles. */
  lemma {:induction false} WithoutConcat(a: seq<string>, b: seq<string>, x: string)
    ensures Without(a + b, x) == Without(a, x) + Without(b, x)
  {
    if |a| == 0 {
      assert a + b == b;
    } else {
      assert (a + b)[1..] == a[1..] + b;
      WithoutConcat(a[1..], b, x);
    }
  }

  /** Removing `x` drops every copy of it and keeps every other title as
      many times as it occurred. */
  lemma {:induction false} WithoutCount(s: seq<string>, x: string)
    ensures multiset(Without(s, x)) == multiset(s)[x := 0]
  {
    if |s| > 0 {
      var tail := s[1..];
      assert s == [s[0]] + tail;
      WithoutCount(tail, x);
      if s[0] == x {
        assert Without(s, x) == Without(tail, x);
      } else {
        assert Without(s, x) == [s[0]] + Without(tail, x);
      }
    }
  }

  /** In a list without repeats, removing `x` cuts out exactly its one
      position. */
  lemma RemoveUniqueAt(s: seq<string>, x: string, k: nat)
    requires NoDuplicates(s) && k < |s| && s[k] == x
    ensures Without(s, x) == s[..k] + s[k + 1..]
  {
    var before, after := s[..k], s[k + 1..];
    assert s == before + ([x] + after);
    assert x !in before by {
      forall i | 0 <= i < |before|
        ensures before[i] != x
      {
        assert before[i] == s[i];
      }
    }
    assert x !in after by {
      forall i | 0 <= i < |after|
        ensures after[i] != x
      {
        assert after[i] == s[k + 1 + i];
      }
    }
    assert Without([x], x) == [];
    WithoutConcat(before, [x] + after, x);
    WithoutConcat([x], after, x);
    assert [] + after == after;
  }

  /** Clicking an unticked title twice gives back exactly the selection it
      started from. */
  lemma ToggleTwiceAbsent(s: seq<string>, x: string)
    requires x !in s
    ensures Toggle(Toggle(s, x), x) == s
  {
    WithoutConcat(s, [x], x);
    assert Without([x], x) == [] + Without([], x);
  }

  /** Clicking a ticked title twice selects the same titles, but moves it
      from its position `k` to the end. */
  lemma ToggleTwicePresent(s: seq<string>, x: string, k: nat)
    requires NoDuplicates(s) && k < |s| && s[k] == x
    ensures Toggle(Toggle(s, x), x) == s[..k] + s[k + 1..] + [x]
    ensures forall y :: y in Toggle(Toggle(s, x), x) <==> y in s
  {
    RemoveUniqueAt(s, x, k);
  }

  lemma NoDuplicatesCons(a: string, r: seq<string>)
    requires a !in r && NoDuplicates(r)
    ensures NoDuplicates([a] + r)
  {
    var s := [a] + r;
    forall i, j | 0 <= i < j < |s|
      ensures s[i] != s[j]
    {
      assert s[j] == r[j - 1];
      if i > 0 {
        assert s[i] == r[i - 1];
      }
    }
  }

  lemma NoDuplicatesSnoc(r: seq<string>, a: string)
    requires a !in r && NoDuplicates(r)
    ensures NoDuplicates(r + [a])
  {
    var s := r + [a];
    forall i, j | 0 <= i < j < |s|
      ensures s[i] != s[j]
    {
      assert s[i] == r[i];
      if j < |r| {
        assert s[j] == r[j];
      }
    }
  }

  /** Removing a title keeps a list free of repeats. */
  lemma {:induction false} WithoutNoDuplicates(s: seq<string>, x: string)
    requires NoDuplicates(s)
    ensures NoDuplicates(Without(s, x))
  {
    if |s| > 0 {
      var tail := s[1..];
      assert NoDuplicates(tail) by {
        forall i, j | 0 <= i < j < |tail|
          ensures tail[i] != tail[j]
        {
          assert tail[i] == s[i + 1] && tail[j] == s[j + 1];
        }
      }
      WithoutNoDuplicates(tail, x);
      if s[0] != x {
        assert s[0] !in tail by {
          forall k | 0 <= k < |tail|
            ensures tail[k] != s[0]
          {
            assert tail[k] == s[k + 1];
          }
        }
        NoDuplicatesCons(s[0], Without(tail, x));
      } else {
        assert [] + Without(tail, x) == Without(tail, x);
      }
    }
  }

  /** Clicking a checkbox keeps the selection free of repeats. */
  lemma ToggleNoDuplicates(s: seq<string>, x: string)
    requires NoDuplicates(s)
    ensures NoDuplicates(Toggle(s, x))
  {
    if x in s {
      WithoutNoDuplicates(s, x);
    } else {
      NoDuplicatesSnoc(s, x);
    }
  }

  /** Clicking the checkbox of an offered title keeps the form valid. */
  lemma HandleTitleChangeValid(f: Form, title: string)
    requires Valid(f) && title in f.titles
    ensures Valid(HandleTitleChange(f, title))
  {
    ToggleNoDuplicates(f.selected, title);
  }

  /** Clicking "Add Title" keeps the form valid. */
  lemma AddNewTitleValid(f: Form)
    requires Valid(f)
    ensures Valid(AddNewTitle(f))
  {
    if f.newTitle != "" && f.newTitle !in f.titles {
      NoDuplicatesSnoc(f.titles, f.newTitle);
      NoDuplicatesSnoc(f.selected, f.newTitle);
    }
  }

  /** What the user can do to the title part of the form: click the checkbox
      in row `row`, type into the field, or click "Add Title". */
  datatype Action = Click(row: nat) | Type(text: string) | Add

  /** The form after one action; a click on a row past the end of the list
      does nothing, since no such checkbox is shown. */
  function Step(f: Form, a: Action): Form {
    match a
    case Click(row) => if row < |f.titles| then HandleTitleChange(f, f.titles[row]) else f
    case Type(text) => f.(newTitle := text)
    case Add => AddNewTitle(f)
  }

  /** The form after a run of actions, first to last. */
  function Run(f: Form, acts: seq<Action>): Form
    decreases |acts|
  {
    if |acts| == 0 then f else Run(Step(f, acts[0]), acts[1..])
  }

  /** Every action keeps the form valid. */
  lemma StepValid(f: Form, a: Action)
    requires Valid(f)
    ensures Valid(Step(f, a))
  {
    match a
    case Click(row) =>
      if row < |f.titles| {
        HandleTitleChangeValid(f, f.titles[row]);
      }
    case Type(text) =>
    case Add =>
      AddNewTitleValid(f);
  }

  /** Whatever the user does from a valid form, the form stays valid. */
  lemma {:induction false} RunValid(f: Form, acts: seq<Action>)
    requires Valid(f)
    ensures Valid(Run(f, acts))
    decreases |acts|
  {
    if |acts| > 0 {
      StepValid(f, acts[0]);
      RunValid(Step(f, acts[0]), acts[1..]);
    }
  }

  /** Every form the user can reach from the opening one is valid. */
  lemma ReachableValid(acts: seq<Action>)
    ensures Valid(Run(Initial(), acts))
  {
    RunValid(Initial(), acts);
  }
}
